=== FILE: README.md ===
# Review queue: the Ask Ubuntu plugin and the Review model

This project models the core of a charm review queue. The queue keeps a table of reviews. Each review mirrors one item on a remote tracker:
- a merge proposal,
- a bug task filed against a new charm,
- or an Ask Ubuntu question.

Each review also has votes derived from the comment thread of that remote item.

The model covers two source files.

- `reviewq/models.py`, in `models.dfy` (module `Models`):
  - the review states and the text stored for each;
  - the review and vote types;
  - the `Review` record as a class whose fields the operations update in place;
  - its advisory lock (`Lock`, `Unlock`);
  - its follow-up predicates and the article for its state;
  - the positive and negative vote filters;
  - the latest-test helper and the age label;
  - the UTC timestamp column type (`BindParam`, `ResultValue`).
  - The database session is a `Session` class. It holds the reviews keyed by api url and the votes keyed by comment id.
- `reviewq/plugins/askubuntu.py`, in `askubuntu.dfy` (module `AskUbuntu`):
  - the reconcilers `create_from_merge`, `create_from_bug` and `create`;
  - the vote-deriving loops `parse_comments` and `parse_messages`;
  - `refresh`;
  - the loops of `get_bugs` and `get_questions`.

Collaborators outside these files are fields of the `AskUbuntu.Helpers` value:
- the state mapper (`map_lp_state`),
- `bug_state`,
- the sentiment classifier,
- user and series creation.

They are total functions the model knows nothing about. The model states everything relative to them.

## How the pieces fit

- **Specification functions.**
  - `VoteCalls` lists the votes a thread makes the loops create: one per message whose comment id has no vote with a creation stamp yet.
  - `Record` stores those votes.
  - `Ingest` is the two combined.
- **Loop methods.** `ParseComments` and `ParseMessages` are loops over the thread. Their postcondition ties the new vote table to `Ingest`.
- **Lemmas about `Ingest`.**
  - Votes that already have a stamp are kept.
  - Every message of the thread ends up with a vote.
  - Ingesting twice is the same as ingesting once.
  - The votes created are exactly the unrecorded messages, once each.
- **Merge reconciler.**
  - `MergeTransaction` is the source's transaction block. It finds or makes the review (`FirstOrNew`), sets its attributes (`SyncMerge`) and stores it.
  - `CreateFromMerge` runs that transaction, then parses the comments if the series is active.
  - Its postcondition, `MergeReconciled`, gives the whole new state of the review and of both tables:
    - the upsert;
    - the untouched identity fields;
    - the copied attributes;
    - `MergeAfter` on the previous state, updated stamp, series and lock;
    - the new votes.
- **Bug reconciler.** `CreateFromBug` does the same with `BugTransaction`, `SyncBug`, `BugReconciled` and `ParseMessages`.
- **Lock after a merge sync.** `MergeAfter` clears the lock exactly when the `updated` stamp changes, or when the stored state before the sync differs from the state after the series rule (before the FOLLOW UP rule). `MergeResync` shows what a second sync of the same merge proposal does:
  - it is a no-op on state, stamp and series;
  - it keeps the lock, except when the FOLLOW UP rule applies.

Behaviours of the source that the model keeps as they are:
- **FOLLOW UP merge reviews.** A merge review that the FOLLOW UP rule put in FOLLOW UP is unlocked again on every later sync in which that rule fires. The lock test compares the state before the FOLLOW UP rule with the stored state, which is the state after it (`AskUbuntu.MergeResync`). When the state mapper itself returns FOLLOW UP for a stored FOLLOW UP review and the stamp is unchanged, the two agree and the lock is kept.
- **Bug reviews.** `create_from_bug` keeps the review it found as `prev`. `prev` is the same object as the one it updates, so the test that would unlock a changed review never fires. The lock of a bug review survives every sync (`AskUbuntu.BugFields`).
- **`refresh` outcomes.** When the remote record is gone or its value is bad, `refresh` writes the plain `status` attribute, not the `state` column. The model has `status` as a non-column field, and `refresh` leaves `state` unchanged.
- **`create`.** It sets the category of a new question's review but never adds that review to the session, so the tables do not change (`AskUbuntu.Create`).
- **Missing ids.** `refresh`'s `not id` counts the id 0 as missing, and `not record.api_url` counts the empty url as missing.

## Model

| member | source | states |
|---|---|---|
| Models.StateName | reviewq/models.py:58-59 | every state is stored as a non-empty name, and the name reads back as that state |
| Models.StateNamesDistinct | reviewq/models.py:58-59 | no two states are stored under the same name |
| Models.Review.Lock | reviewq/models.py:113-115 | the review is locked at the given time by the given user; no other field changes |
| Models.Review.Unlock | reviewq/models.py:117-119 | lock time and locker are cleared; no other field changes |
| Models.Review.UserFollowup | reviewq/models.py:121-123 | holds exactly when the stored state name is REVIEWED or IN PROGRESS |
| Models.Review.ReviewerFollowup | reviewq/models.py:125-127 | holds exactly when the stored state name is READY, NEW, PENDING or FOLLOW UP |
| Models.FollowupExclusive | reviewq/models.py:121-127 | the user-follow-up and reviewer-follow-up predicates never hold together |
| Models.FollowupPartition | reviewq/models.py:121-127 | a review with a state waits on nobody exactly when it is MERGED, CLOSED or ABANDONDED |
| Models.Review.StateInflect | reviewq/models.py:129-131 | the article is "an" exactly for ABANDONDED and IN PROGRESS, and "a" otherwise |
| Models.Review.Test | reviewq/models.py:76-89 | null exactly when there are no tests; otherwise the last test, coloured red exactly on FAIL, green exactly on PASS, and uncoloured otherwise |
| Models.VotesOf | reviewq/models.py:91-97 | the filtered votes are exactly the votes of that kind, no more than the input |
| Models.VotesOfSubsequence | reviewq/models.py:91-97 | the filter keeps the original order of the votes |
| Models.VotesOfMultiplicity | reviewq/models.py:91-97 | each vote of the kind appears as often as in the input; no other vote appears |
| Models.Review.PositiveVotes | reviewq/models.py:91-93 | exactly the review's votes cast as POSITIVE, no more than all its votes |
| Models.Review.NegativeVotes | reviewq/models.py:95-97 | exactly the review's votes cast as NEGATIVE, no more than all its votes |
| Models.PositiveNegativeDisjoint | reviewq/models.py:91-97 | no vote is both positive and negative |
| Models.PositiveNegativeFit | reviewq/models.py:91-97 | the positive and negative votes together number at most all the votes |
| Models.ElapsedLabel | reviewq/models.py:106-111 | as written: "0 h" exactly for a whole number of days, and a day count otherwise |
| Models.AgeOneHourCounterexample | reviewq/models.py:107 | one hour elapsed reads "0 d" as written, where "1 h" is meant |
| Models.IntendedShowsHours | reviewq/models.py:106-111 | the corrected label shows the whole hours elapsed, up to 48 |
| Models.IntendedShowsDays | reviewq/models.py:108-109 | beyond 48 hours the corrected label counts whole days |
| Models.Review.Age | reviewq/models.py:99-111 | as written: measured from `updated` or from `created`, the label is "0 h" exactly for a whole number of days elapsed, and the whole days elapsed otherwise |
| Models.Review.AgeIntended | reviewq/models.py:99-111 | corrected: measured from `updated` or from `created`, the label is the whole hours elapsed up to 48, and the whole days beyond |
| Models.BindParam | reviewq/models.py:35-37 | storing keeps null as null and tags a value as UTC without moving its wall clock |
| Models.ResultValue | reviewq/models.py:39-41 | loading keeps null as null and drops the time zone without moving the wall clock |
| Models.UtcRoundTrip | reviewq/models.py:32-41 | a naive datetime or null survives a store followed by a load |
| Models.UtcRoundTripDropsZone | reviewq/models.py:32-41 | any datetime comes back from a store and a load as the naive reading of the same wall clock |
| Models.Session.Get | reviewq/plugins/askubuntu.py:207-208 | returns a review with the id if one exists, and null only when no review has it |
| Models.Session.CreateVote | reviewq/plugins/askubuntu.py:175-176 | the vote is stored under its comment id; no other vote changes |
| AskUbuntu.MergeState | reviewq/plugins/askubuntu.py:86-113 | a retired series makes the review ABANDONDED; otherwise REVIEWED or CLOSED becomes FOLLOW UP when the registrant wrote the last comment |
| AskUbuntu.BugUpdated | reviewq/plugins/askubuntu.py:138-140 | the stamp is the later of the bug's last message and its last update |
| AskUbuntu.BugState | reviewq/plugins/askubuntu.py:137-153 | a not-a-charm tag gives ABANDONDED; otherwise REVIEWED or CLOSED becomes FOLLOW UP when the assignee wrote the last message |
| AskUbuntu.MergeAfter | reviewq/plugins/askubuntu.py:85-113 | `updated` becomes the last comment's stamp, else the proposal's; the series follows the target series; the lock is cleared exactly when `updated` or the state (after the series rule) differs from before, and kept otherwise |
| AskUbuntu.MergeResync | reviewq/plugins/askubuntu.py:101-113 | a second sync keeps state, `updated` and series; it keeps the lock unless the FOLLOW UP rule fired, and then it clears it |
| AskUbuntu.RecordAppend | reviewq/plugins/askubuntu.py:159-176 | storing one more vote extends the stored votes by exactly that vote |
| AskUbuntu.IngestKeepsRecorded | reviewq/plugins/askubuntu.py:167-170 | a vote that has a creation stamp is never replaced |
| AskUbuntu.IngestRecordsThread | reviewq/plugins/askubuntu.py:165-176 | after ingestion every message of the thread has a vote under its comment id |
| AskUbuntu.NoCallsWhenRecorded | reviewq/plugins/askubuntu.py:167-170 | a thread whose messages all have stamped votes creates no vote |
| AskUbuntu.IngestIdempotent | reviewq/plugins/askubuntu.py:159-201 | ingesting the same thread twice gives the same votes as ingesting it once |
| AskUbuntu.VoteCallsSound | reviewq/plugins/askubuntu.py:165-176 | every vote created belongs to a message of the thread that had no stamped vote, and is derived from it |
| AskUbuntu.VoteCallsDistinct | reviewq/plugins/askubuntu.py:165-176 | no comment id gets two votes in one pass |
| AskUbuntu.VoteCallsComplete | reviewq/plugins/askubuntu.py:165-176 | every message without a stamped vote gets a vote in the pass |
| AskUbuntu.FreshThreadCallsEach | reviewq/plugins/askubuntu.py:165-176 | a thread of distinct, unrecorded comments gets exactly one vote per message, in order |
| AskUbuntu.ParseComments | reviewq/plugins/askubuntu.py:159-176 | the vote table becomes the ingestion of all the comments |
| AskUbuntu.ParseMessages | reviewq/plugins/askubuntu.py:178-201 | the vote table becomes the ingestion of every message but the first |
| AskUbuntu.FirstOrNew | reviewq/plugins/askubuntu.py:74-79 | returns the review stored under the key if there is one; otherwise a fresh review with the given type, url and creation stamp, no title, url, owner, source, sync time or state, and no lock |
| AskUbuntu.SyncMerge | reviewq/plugins/askubuntu.py:81-113 | the review holds the copied attributes and the state, stamp, series and lock of `MergeAfter`; the result says whether the series is active |
| AskUbuntu.MergeTransaction | reviewq/plugins/askubuntu.py:73-115 | the review found or made is stored under the proposal's self link, with its identity fields kept and its attributes as in `SyncMerge`; the result says whether the series is active |
| AskUbuntu.CreateFromMerge | reviewq/plugins/askubuntu.py:71-120 | upsert under the proposal's self link; identity fields kept; attributes per `MergeAfter`; votes ingested from the comments exactly when the series is active |
| AskUbuntu.SyncBug | reviewq/plugins/askubuntu.py:133-153 | the review holds the bug's title, owner, url, source, sync time, `BugUpdated` stamp and `BugState` state |
| AskUbuntu.BugTransaction | reviewq/plugins/askubuntu.py:125-155 | the review found or made is stored under the task's self link, with its identity fields, series and lock kept and its attributes as in `SyncBug` |
| AskUbuntu.CreateFromBug | reviewq/plugins/askubuntu.py:122-157 | upsert under the task's self link; identity fields, series and lock kept; attributes as in `SyncBug`; votes ingested from every message but the description |
| AskUbuntu.Create | reviewq/plugins/askubuntu.py:62-69 | the existing review, or a fresh one with the question's url and creation date and nothing else set, gets the askubuntu category; the tables are unchanged |
| AskUbuntu.ReconcileNewBug | reviewq/plugins/askubuntu.py:58-60 | a task with no review gets one under its self link, synced from the bug with the bug's messages voted; stored reviews, stamped votes and the sync of other tasks are kept |
| AskUbuntu.LinkedKeys | reviewq/plugins/askubuntu.py:55-57 | a key is in the set exactly when some task not filed against a source package has it as self link |
| AskUbuntu.FirstOfKeyLinked | reviewq/plugins/askubuntu.py:55-60 | a task is the first non-source task with its self link exactly when no earlier non-source task has that link |
| AskUbuntu.GetBugs | reviewq/plugins/askubuntu.py:55-60 | every task not filed against a source package gets a review under its self link; existing reviews and stamped votes are never replaced; for a link that had no review, the review is synced from the first task with that link and that bug's messages have votes |
| AskUbuntu.RefreshFound | reviewq/plugins/askubuntu.py:227-233 | a NEW record reconciles the loaded bug task, an UPDATE record the loaded merge proposal, with every other stored review left as it was; a mismatched record or an unknown type raises and changes nothing |
| AskUbuntu.GetQuestions | reviewq/plugins/askubuntu.py:36-41 | each question, in order, is created when no review has its url, and refreshed otherwise |
| AskUbuntu.Refresh | reviewq/plugins/askubuntu.py:203-233 | each exit of refresh: the error raised or the value returned, and the state left behind (nothing changed, only `status` set, or the result of the matching reconciler, with every other stored review left as it was) |

## Left out

- Transactions, `flush`, `commit` and `rollback`: the model applies every change to the session directly and has no failure midway.
- The primary key, type, api url, creation stamp, votes and tests of a review are `const` fields. The operations modelled here never write them after the review is made. The model never writes the relationships (`votes`, `tests`), although the source's backrefs would add a new vote to its review's `votes`.
- Primary keys: they are not assigned to new reviews, and their uniqueness is not modelled. `Session.Get` returns any review with the id.
- AskUbuntu.Refresh: when the remote record is gone or its value is bad, the source adds `record` to the session and commits. The model sets `status` and leaves the review table unchanged, so a `record` that was not stored is not inserted.
- AskUbuntu.Refresh: the session keys every review by its api url, so a review with no api url cannot be stored. `refresh(id=n)` for such a review, which returns False in the source, raises `NoSuchReview` in the model. Through an id, the `ReturnedFalse` exit is reached only for a review stored under the empty url.
- Models.Review.StateInflect: requires a state. The source raises on a review with no state.
- Models.Review.Age: requires the stamp it measures from. The source raises on a missing stamp. AgeIntended has the same requirement.
- The `Source` lookups: `query(Source).filter_by(slug=...).one()` is not modelled. A review's source and category are stored as their slug strings.
- Logging is left out.
- Models.Review.Age: the source's `age` is a cached property, so it is always evaluated with `use_updated` true. The model's `useUpdated` parameter also describes the `created` path, which the property never takes.
- Every cached property of `Review` (`test`, `positive_votes`, `negative_votes`, `user_followup`, `reviewer_followup`, `state_inflect`, `age`) is modelled as recomputed on each read. The per-instance caching is left out.
- Remote clients:
  - The Launchpad and Stack Exchange clients and their searches are not modelled.
  - Their results become parameters: the task and question lists, and the `load` function of `Refresh`.
  - The clock becomes the `now` parameter.
- AskUbuntu.GetQuestions: for a question that already has a review, it records the call to `refresh` but does not model that call's effect. The source passes it a Stack Exchange question, which `refresh` does not accept as a review.
- AskUbuntu.GetBugs: the search that produces the task list is not modelled, nor are its error handling and logging.
- The `votes` backref of a review is not modelled. `create_vote`'s effect is modelled only on the vote table.
- The `ingest` entry point of the plugin is not modelled. It only dispatches to the functions above.
- AskUbuntu.CreateFromBug: the source fails on a REVIEWED or CLOSED bug with no messages. The model requires `BugReconcilable` instead of modelling that failure.
- AskUbuntu.Refresh: it models that failure the same way, through its requirement on `load`.
- Time zones other than UTC are not modelled. A zone is a tag on a wall-clock reading, and conversion between zones is out of scope.
- The column defaults that read the clock (`utcnow`) are not modelled. The `Review` constructor takes the creation stamp as a parameter.
- AskUbuntu.CreateFromMerge: the source adds a new review to the session twice, before and after setting its attributes. The model stores it once, after the attributes are set, and the resulting state is the same.
- AskUbuntu.SyncMerge: it works the attributes out in the order the source assigns and re-reads them, then writes them to the review in one step. Intermediate states of the object are not modelled.
- The users and series themselves, including `create_user` and `create_series`, are not modelled. They are opaque values returned by helpers.

## Findings

| source | as written | input that shows it | evidently intended | confidence | as-written member | corrected member |
|---|---|---|---|---|---|---|
| reviewq/models.py:107 | `hours` is the sub-day remainder of seconds times 3600, so any remainder of a second or more exceeds 48 | a review updated 3600 seconds ago is labelled "0 d" | whole hours elapsed, so "1 h" | high; not executed | Models.AgeOneHourCounterexample | Models.Review.AgeIntended |

=== FILE: askubuntu.dfy ===
/**
 * The AskUbuntu source plugin (reviewq/plugins/askubuntu.py): it reconciles
 * remote Launchpad merge proposals and bug tasks, and Ask Ubuntu questions,
 * into local Review rows, and derives ReviewVote rows from their comment and
 * message threads.
 *
 * The remote clients are replaced by plain records, and the helpers the
 * plugin calls but this model does not contain (map_lp_state, bug_state,
 * determine_sentiment, create_user, create_series) are the arbitrary
 * functions held in a `Helpers` value: every property below holds whatever
 * they return. The clock is the parameter `now`.
 */
module AskUbuntu {
  import opened Wrappers
  import opened Models

  /** A remote person, as the Launchpad client hands it over. */
  type Person = string

  /** A remote distribution series, before create_series resolves it. */
  type SeriesData = string

  /** One entry of a remote thread: a merge-proposal comment (`author`, and
      `vote` as its body) or a bug message (`owner`, and `content` as its body). */
  datatype Message = Message(selfLink: string, author: Person, body: string, dateCreated: int)

  /** A Launchpad merge proposal. `targetSeries` is the distroseries of the
      target branch's source package, when it has one. */
  datatype MergeTask = MergeTask(
    selfLink: string,
    webLink: string,
    dateCreated: int,
    queueStatus: string,
    registrant: Person,
    sourceBranch: string,
    targetSeries: Option<SeriesData>,
    comments: seq<Message>)

  datatype Bug = Bug(
    title: string,
    dateLastMessage: int,
    dateLastUpdated: int,
    messages: seq<Message>,
    tags: seq<string>)

  /** A Launchpad bug task. */
  datatype BugTask = BugTask(
    selfLink: string,
    webLink: string,
    dateCreated: int,
    owner: Person,
    assignee: Option<Person>,
    bug: Bug)

  /** An Ask Ubuntu question. */
  datatype Question = Question(url: string, creationDate: int)

  /** What the Launchpad client's load returns for an api url. */
  datatype RemoteTask = BugRecord(bugTask: BugTask) | MergeRecord(mergeTask: MergeTask)
  datatype LoadOutcome = Found(task: RemoteTask) | NotFound | BadValue

  /** The collaborators the plugin calls and this model leaves uninterpreted.
      Each is called through a member function, whose value does not depend
      on the heap of the call site. */
  datatype Helpers = Helpers(
    mapLpState: string -> State,
    bugState: BugTask -> State,
    determineSentiment: string -> VoteKind,
    createUser: Person -> UserId,
    createSeries: SeriesData -> Series)
  {
    function MapLpState(queueStatus: string): State { mapLpState(queueStatus) }
    function MapBugState(task: BugTask): State { bugState(task) }
    function DetermineSentiment(text: string): VoteKind { determineSentiment(text) }
    function CreateUser(person: Person): UserId { createUser(person) }
    function CreateSeries(data: SeriesData): Series { createSeries(data) }
  }

  // ---------------------------------------------------------------------
  // State and timestamp rules of the reconcilers

  /** The series rule: a review of a retired series is abandoned. */
  function SeriesOverride(mapped: State, series: Option<Series>): State
  {
    if series.Some? && !series.value.active then Abandonded else mapped
  }

  /** The thread's last entry is by `person`. */
  predicate LastBy(thread: seq<Message>, person: Person)
  {
    |thread| > 0 && thread[|thread| - 1].author == person
  }

  /** The final state of a merge review, given the mapped queue status. */
  function MergeState(mapped: State, series: Option<Series>, comments: seq<Message>, registrant: Person): (s: State)
    ensures series.Some? && !series.value.active ==> s == Abandonded
    ensures series.None? || series.value.active ==>
      s == if (mapped == Reviewed || mapped == Closed) && LastBy(comments, registrant) then FollowUp else mapped
  {
    var s := SeriesOverride(mapped, series);
    if (s == Reviewed || s == Closed) && LastBy(comments, registrant) then FollowUp else s
  }

  /** The `updated` stamp of a merge review: its last comment's, else its own creation's. */
  function MergeUpdated(task: MergeTask): int
  {
    if |task.comments| > 0 then task.comments[|task.comments| - 1].dateCreated else task.dateCreated
  }

  /** The `updated` stamp of a bug review: the later of its last message and its last update. */
  function BugUpdated(bug: Bug): (t: int)
    ensures t >= bug.dateLastMessage && t >= bug.dateLastUpdated
    ensures t == bug.dateLastMessage || t == bug.dateLastUpdated
  {
    if bug.dateLastMessage > bug.dateLastUpdated then bug.dateLastMessage else bug.dateLastUpdated
  }

  /** create_from_bug reads the last message whenever the mapped state is
      REVIEWED or CLOSED, and fails on an empty thread then. */
  predicate BugReconcilable(task: BugTask, h: Helpers)
  {
    |task.bug.messages| > 0 || (h.MapBugState(task) != Reviewed && h.MapBugState(task) != Closed)
  }

  /** The final state of a bug review, given the state bug_state maps it to. */
  function BugState(mapped: State, messages: seq<Message>, assignee: Option<Person>, tags: seq<string>): (s: State)
    requires |messages| > 0 || (mapped != Reviewed && mapped != Closed)
    ensures "not-a-charm" in tags ==> s == Abandonded
    ensures "not-a-charm" !in tags ==>
      s == if (mapped == Reviewed || mapped == Closed) && Some(messages[|messages| - 1].author) == assignee
           then FollowUp else mapped
  {
    var s :=
      if (mapped == Reviewed || mapped == Closed) && Some(messages[|messages| - 1].author) == assignee
      then FollowUp else mapped;
    if "not-a-charm" in tags then Abandonded else s
  }

  // ---------------------------------------------------------------------
  // Vote derivation from a thread

  /** A vote with a creation stamp is stored under this comment id. */
  predicate Recorded(votes: map<string, ReviewVote>, commentId: string)
  {
    commentId in votes && votes[commentId].created.Some?
  }

  /** The vote handed to create_vote for one thread entry. */
  function NewVote(m: Message, review: Review, h: Helpers): ReviewVote
  {
    ReviewVote(m.selfLink, h.DetermineSentiment(m.body), h.CreateUser(m.author), review, Some(m.dateCreated))
  }

  /** The create_vote calls a pass over `thread` makes, in order, starting
      from the vote table `votes`. */
  function VoteCalls(votes: map<string, ReviewVote>, thread: seq<Message>, review: Review, h: Helpers): seq<ReviewVote>
    decreases |thread|
  {
    if thread == [] then []
    else if Recorded(votes, thread[0].selfLink) then VoteCalls(votes, thread[1..], review, h)
    else
      var v := NewVote(thread[0], review, h);
      [v] + VoteCalls(votes[v.commentId := v], thread[1..], review, h)
  }

  /** The vote table after the calls `calls`, each storing its vote under its comment id. */
  function Record(votes: map<string, ReviewVote>, calls: seq<ReviewVote>): map<string, ReviewVote>
    decreases |calls|
  {
    if calls == [] then votes else Record(votes[calls[0].commentId := calls[0]], calls[1..])
  }

  /** The vote table after a pass over `thread`. */
  function Ingest(votes: map<string, ReviewVote>, thread: seq<Message>, review: Review, h: Helpers): map<string, ReviewVote>
  {
    Record(votes, VoteCalls(votes, thread, review, h))
  }

  /** The part of a bug's messages that parse_messages reads: all but the first. */
  function Thread(messages: seq<Message>): seq<Message>
  {
    if messages == [] then [] else messages[1..]
  }

  lemma {:induction false} RecordAppend(votes: map<string, ReviewVote>, calls: seq<ReviewVote>, v: ReviewVote)
    ensures Record(votes, calls + [v]) == Record(votes, calls)[v.commentId := v]
    decreases |calls|
  {
    if calls != [] {
      assert (calls + [v])[1..] == calls[1..] + [v];
      RecordAppend(votes[calls[0].commentId := calls[0]], calls[1..], v);
    }
  }

  lemma IngestStep(votes: map<string, ReviewVote>, thread: seq<Message>, review: Review, h: Helpers)
    requires thread != []
    ensures Ingest(votes, thread, review, h) ==
      if Recorded(votes, thread[0].selfLink) then Ingest(votes, thread[1..], review, h)
      else Ingest(votes[thread[0].selfLink := NewVote(thread[0], review, h)], thread[1..], review, h)
  {
    if !Recorded(votes, thread[0].selfLink) {
      var v := NewVote(thread[0], review, h);
      var rest := VoteCalls(votes[v.commentId := v], thread[1..], review, h);
      assert ([v] + rest)[1..] == rest;
    }
  }

  /** A vote that already has a creation stamp is never replaced. */
  lemma {:induction false} IngestKeepsRecorded(votes: map<string, ReviewVote>, thread: seq<Message>, review: Review, h: Helpers, k: string)
    requires Recorded(votes, k)
    ensures k in Ingest(votes, thread, review, h) && Ingest(votes, thread, review, h)[k] == votes[k]
    decreases |thread|
  {
    if thread != [] {
      IngestStep(votes, thread, review, h);
      if Recorded(votes, thread[0].selfLink) {
        IngestKeepsRecorded(votes, thread[1..], review, h, k);
      } else {
        var votes' := votes[thread[0].selfLink := NewVote(thread[0], review, h)];
        assert votes'[k] == votes[k];
        IngestKeepsRecorded(votes', thread[1..], review, h, k);
      }
    }
  }

  /** After a pass, every entry of the thread has a vote with a creation stamp. */
  lemma {:induction false} IngestRecordsThread(votes: map<string, ReviewVote>, thread: seq<Message>, review: Review, h: Helpers)
    ensures forall m :: m in thread ==> Recorded(Ingest(votes, thread, review, h), m.selfLink)
    decreases |thread|
  {
    if thread != [] {
      IngestStep(votes, thread, review, h);
      var votes' :=
        if Recorded(votes, thread[0].selfLink) then votes
        else votes[thread[0].selfLink := NewVote(thread[0], review, h)];
      IngestRecordsThread(votes', thread[1..], review, h);
      IngestKeepsRecorded(votes', thread[1..], review, h, thread[0].selfLink);
      forall m | m in thread
        ensures Recorded(Ingest(votes, thread, review, h), m.selfLink)
      {
        if m != thread[0] {
          assert m in thread[1..];
        }
      }
    }
  }

  /** A thread whose every entry is already recorded makes no call. */
  lemma {:induction false} NoCallsWhenRecorded(votes: map<string, ReviewVote>, thread: seq<Message>, review: Review, h: Helpers)
    requires forall m :: m in thread ==> Recorded(votes, m.selfLink)
    ensures VoteCalls(votes, thread, review, h) == []
    decreases |thread|
  {
    if thread != [] {
      assert thread[0] in thread;
      NoCallsWhenRecorded(votes, thread[1..], review, h);
    }
  }

  /** Running the pass a second time over the same thread creates nothing and
      leaves the vote table as the first pass left it. */
  lemma IngestIdempotent(votes: map<string, ReviewVote>, thread: seq<Message>, review: Review, h: Helpers)
    ensures VoteCalls(Ingest(votes, thread, review, h), thread, review, h) == []
    ensures Ingest(Ingest(votes, thread, review, h), thread, review, h) == Ingest(votes, thread, review, h)
  {
    IngestRecordsThread(votes, thread, review, h);
    NoCallsWhenRecorded(Ingest(votes, thread, review, h), thread, review, h);
  }

  /** Every call carries a new vote for an entry of the thread whose comment
      id had no stamped vote; there are no more calls than entries. */
  lemma {:induction false} VoteCallsSound(votes: map<string, ReviewVote>, thread: seq<Message>, review: Review, h: Helpers)
    ensures |VoteCalls(votes, thread, review, h)| <= |thread|
    ensures forall v :: v in VoteCalls(votes, thread, review, h) ==>
      !Recorded(votes, v.commentId) && exists m :: m in thread && v == NewVote(m, review, h)
    decreases |thread|
  {
    if thread != [] {
      var calls := VoteCalls(votes, thread, review, h);
      if Recorded(votes, thread[0].selfLink) {
        VoteCallsSound(votes, thread[1..], review, h);
        forall v | v in calls
          ensures exists m :: m in thread && v == NewVote(m, review, h)
        {
          var m :| m in thread[1..] && v == NewVote(m, review, h);
          assert m in thread;
        }
      } else {
        var v0 := NewVote(thread[0], review, h);
        var votes' := votes[v0.commentId := v0];
        VoteCallsSound(votes', thread[1..], review, h);
        forall v | v in calls
          ensures !Recorded(votes, v.commentId) && exists m :: m in thread && v == NewVote(m, review, h)
        {
          if v != v0 {
            assert v in VoteCalls(votes', thread[1..], review, h);
            var m :| m in thread[1..] && v == NewVote(m, review, h);
            assert m in thread;
          } else {
            assert thread[0] in thread;
          }
        }
      }
    }
  }

  /** No two of `calls` store their vote under the same comment id. */
  predicate DistinctIds(calls: seq<ReviewVote>)
  {
    forall i, j :: 0 <= i < j < |calls| ==> calls[i].commentId != calls[j].commentId
  }

  /** A call for an id none of `rest` uses keeps the calls distinct. */
  lemma DistinctCons(v0: ReviewVote, rest: seq<ReviewVote>)
    requires DistinctIds(rest)
    requires forall v :: v in rest ==> v.commentId != v0.commentId
    ensures DistinctIds([v0] + rest)
  {
    var calls := [v0] + rest;
    forall i, j | 0 <= i < j < |calls|
      ensures calls[i].commentId != calls[j].commentId
    {
      assert calls[j] == rest[j - 1];
      if i == 0 {
        assert rest[j - 1] in rest;
      } else {
        assert calls[i] == rest[i - 1];
      }
    }
  }

  /** No two calls store a vote under the same comment id. */
  lemma {:induction false} VoteCallsDistinct(votes: map<string, ReviewVote>, thread: seq<Message>, review: Review, h: Helpers)
    ensures DistinctIds(VoteCalls(votes, thread, review, h))
    decreases |thread|
  {
    if thread != [] {
      if Recorded(votes, thread[0].selfLink) {
        VoteCallsDistinct(votes, thread[1..], review, h);
        assert VoteCalls(votes, thread, review, h) == VoteCalls(votes, thread[1..], review, h);
      } else {
        var v0 := NewVote(thread[0], review, h);
        var votes' := votes[v0.commentId := v0];
        var rest := VoteCalls(votes', thread[1..], review, h);
        VoteCallsDistinct(votes', thread[1..], review, h);
        VoteCallsSound(votes', thread[1..], review, h);
        assert Recorded(votes', v0.commentId);
        DistinctCons(v0, rest);
        assert VoteCalls(votes, thread, review, h) == [v0] + rest;
      }
    }
  }

  /** Every entry whose comment id had no stamped vote gets a call. */
  lemma {:induction false} VoteCallsComplete(votes: map<string, ReviewVote>, thread: seq<Message>, review: Review, h: Helpers)
    ensures forall m :: m in thread && !Recorded(votes, m.selfLink) ==>
      exists v :: v in VoteCalls(votes, thread, review, h) && v.commentId == m.selfLink
    decreases |thread|
  {
    if thread != [] {
      var calls := VoteCalls(votes, thread, review, h);
      var votes' :=
        if Recorded(votes, thread[0].selfLink) then votes
        else votes[thread[0].selfLink := NewVote(thread[0], review, h)];
      VoteCallsComplete(votes', thread[1..], review, h);
      forall m | m in thread && !Recorded(votes, m.selfLink)
        ensures exists v :: v in calls && v.commentId == m.selfLink
      {
        if m.selfLink == thread[0].selfLink {
          assert calls[0] in calls;
        } else {
          assert m in thread[1..];
          var v :| v in VoteCalls(votes', thread[1..], review, h) && v.commentId == m.selfLink;
          assert v in calls;
        }
      }
    }
  }

  /** On a thread of distinct comments none of which has a stamped vote,
      the pass makes one call per entry, in the thread's order. */
  lemma {:induction false} FreshThreadCallsEach(votes: map<string, ReviewVote>, thread: seq<Message>, review: Review, h: Helpers)
    requires forall i :: 0 <= i < |thread| ==> !Recorded(votes, thread[i].selfLink)
    requires forall i, j :: 0 <= i < j < |thread| ==> thread[i].selfLink != thread[j].selfLink
    ensures |VoteCalls(votes, thread, review, h)| == |thread|
    ensures forall i :: 0 <= i < |thread| ==> VoteCalls(votes, thread, review, h)[i] == NewVote(thread[i], review, h)
    decreases |thread|
  {
    if thread != [] {
      var v0 := NewVote(thread[0], review, h);
      var votes' := votes[v0.commentId := v0];
      var tail := thread[1..];
      forall i | 0 <= i < |tail|
        ensures !Recorded(votes', tail[i].selfLink)
      {
        assert tail[i] == thread[i + 1];
      }
      forall i, j | 0 <= i < j < |tail|
        ensures tail[i].selfLink != tail[j].selfLink
      {
        assert tail[i] == thread[i + 1] && tail[j] == thread[j + 1];
      }
      FreshThreadCallsEach(votes', tail, review, h);
    }
  }

  // ---------------------------------------------------------------------
  // Vote derivation methods

  /** parse_comments: one create_vote call per comment whose id has no stamped vote. */
  method ParseComments(db: Session, comments: seq<Message>, review: Review, h: Helpers)
    requires db.Valid()
    modifies db`votes
    ensures db.Valid()
    ensures db.votes == Ingest(old(db.votes), comments, review, h)
  {
    ghost var calls: seq<ReviewVote> := [];
    for i := 0 to |comments|
      invariant db.Valid()
      invariant db.votes == Record(old(db.votes), calls)
      invariant calls + VoteCalls(db.votes, comments[i..], review, h) == VoteCalls(old(db.votes), comments, review, h)
    {
      var m := comments[i];
      assert comments[i..][0] == m && comments[i..][1..] == comments[i + 1..];
      if m.selfLink in db.votes && db.votes[m.selfLink].created.Some? {
        continue;
      }
      var vote := NewVote(m, review, h);
      db.CreateVote(vote);
      RecordAppend(old(db.votes), calls, vote);
      calls := calls + [vote];
    }
    assert comments[|comments|..] == [];
    assert calls == VoteCalls(old(db.votes), comments, review, h);
  }

  /** parse_messages: as parse_comments, but the first message (the bug's
      description) is always skipped. */
  method ParseMessages(db: Session, messages: seq<Message>, review: Review, h: Helpers)
    requires db.Valid()
    modifies db`votes
    ensures db.Valid()
    ensures db.votes == Ingest(old(db.votes), Thread(messages), review, h)
  {
    var first := true;
    ghost var calls: seq<ReviewVote> := [];
    for i := 0 to |messages|
      invariant first <==> i == 0
      invariant db.Valid()
      invariant db.votes == Record(old(db.votes), calls)
      invariant i == 0 ==> calls == []
      invariant i > 0 ==>
        calls + VoteCalls(db.votes, messages[i..], review, h) == VoteCalls(old(db.votes), Thread(messages), review, h)
    {
      if first {
        first := false;
        continue;
      }
      var m := messages[i];
      assert messages[i..][0] == m && messages[i..][1..] == messages[i + 1..];
      if m.selfLink in db.votes && db.votes[m.selfLink].created.Some? {
        continue;
      }
      var vote := NewVote(m, review, h);
      db.CreateVote(vote);
      RecordAppend(old(db.votes), calls, vote);
      calls := calls + [vote];
    }
    if |messages| > 0 {
      assert messages[|messages|..] == [];
    }
    assert calls == VoteCalls(old(db.votes), Thread(messages), review, h);
  }

  // ---------------------------------------------------------------------
  // Reconcilers

  /** A review made by a reconciler: the given type, api url and creation
      stamp, and nothing else set yet that the reconciler does not set. */
  predicate Born(r: Review, reviewType: Option<ReviewType>, apiUrl: string, created: int)
    reads r`status, r`category
  {
    r.reviewType == reviewType && r.apiUrl == Some(apiUrl) && r.created == Some(created)
    && r.id == None && r.status == None && r.category == None && r.votes == [] && r.tests == []
  }

  /** The attributes a reconciler never writes are as they were (the type,
      creation stamp, primary key, votes and tests are never written at all). */
  twostate predicate KeptIdentity(r: Review)
    reads r`status, r`category
  {
    r.status == old(r.status) && r.category == old(r.category)
  }

  /** The copied attributes a reconciler writes are still unset. */
  predicate Blank(r: Review)
    reads r`title, r`url, r`owner, r`source, r`syncd
  {
    r.title == None && r.url == None && r.owner == None && r.source == None && r.syncd == None
  }

  /** The attributes of a review that a reconciler reads before it writes
      them. */
  datatype Prior = Prior(state: Option<State>, updated: Option<int>, series: Option<Series>,
                         locked: Option<int>, locker: Option<UserId>)

  /** What a newly made review holds in those attributes. */
  const Unset := Prior(None, None, None, None, None)

  function PriorOf(r: Review): Prior
    reads r
  {
    Prior(r.state, r.updated, r.series, r.locked, r.locker)
  }

  /** What create_from_merge(task) leaves in those attributes of a review
      that held `before`: the series, the state, the `updated` stamp, and
      the lock, which is cleared exactly when `updated` or the state after
      the series rule (not the final state) differs from before. */
  function MergeAfter(task: MergeTask, h: Helpers, before: Prior): (after: Prior)
    ensures after.updated == Some(MergeUpdated(task))
    ensures task.targetSeries.Some? ==> after.series == Some(h.CreateSeries(task.targetSeries.value))
    ensures task.targetSeries.None? ==> after.series == before.series
    ensures var compared := Some(SeriesOverride(h.MapLpState(task.queueStatus), after.series));
      after.updated != before.updated || compared != before.state ==> after.locked == None && after.locker == None
    ensures var compared := Some(SeriesOverride(h.MapLpState(task.queueStatus), after.series));
      after.updated == before.updated && compared == before.state ==>
        after.locked == before.locked && after.locker == before.locker
  {
    var mapped := h.MapLpState(task.queueStatus);
    var series := if task.targetSeries.Some? then Some(h.CreateSeries(task.targetSeries.value)) else before.series;
    var clear := Some(MergeUpdated(task)) != before.updated || Some(SeriesOverride(mapped, series)) != before.state;
    Prior(Some(MergeState(mapped, series, task.comments, task.registrant)), Some(MergeUpdated(task)), series,
          if clear then None else before.locked, if clear then None else before.locker)
  }

  /** The FOLLOW UP rule of create_from_merge fires: the state after the
      series rule is REVIEWED or CLOSED and the registrant wrote the last
      comment. */
  predicate MergeFollowUp(task: MergeTask, h: Helpers, series: Option<Series>)
  {
    var compared := SeriesOverride(h.MapLpState(task.queueStatus), series);
    (compared == Reviewed || compared == Closed) && LastBy(task.comments, task.registrant)
  }

  /** Reconciling the same merge proposal a second time changes neither the
      state, nor `updated`, nor the series; the lock survives it, except when
      the FOLLOW UP rule fired: the final state then differs from the one the
      change test compares against, so the lock is cleared on every sync. */
  lemma MergeResync(task: MergeTask, h: Helpers, before: Prior)
    ensures var once := MergeAfter(task, h, before);
      var twice := MergeAfter(task, h, once);
      twice.state == once.state && twice.updated == once.updated && twice.series == once.series
      && (MergeFollowUp(task, h, once.series) ==> twice.state == Some(FollowUp) && twice.locked == None && twice.locker == None)
      && (!MergeFollowUp(task, h, once.series) ==> twice.locked == once.locked && twice.locker == once.locker)
  {
    var once := MergeAfter(task, h, before);
    var mapped := h.MapLpState(task.queueStatus);
    var series := if task.targetSeries.Some? then Some(h.CreateSeries(task.targetSeries.value)) else before.series;
    assert once.series == series;
    assert once.state == Some(MergeState(mapped, series, task.comments, task.registrant));
  }

  /** The attributes create_from_merge(task) leaves on a review that held
      `before`. */
  predicate MergeApplied(r: Review, task: MergeTask, h: Helpers, now: int, before: Prior)
    reads r
  {
    // copied attributes
    r.url == Some(task.webLink) && r.title == Some(task.sourceBranch)
    && r.owner == Some(h.CreateUser(task.registrant)) && r.source == Some("lp") && r.syncd == Some(now)
    // derived attributes
    && PriorOf(r) == MergeAfter(task, h, before)
  }

  /** The review attributes and the review table after create_from_merge(task);
      `r` is the review it reconciled. */
  twostate predicate MergeFields(db: Session, task: MergeTask, h: Helpers, now: int, new r: Review)
    reads db`reviews, r
  {
    var key := task.selfLink;
    var existed := key in old(db.reviews);
    // upsert by api url
    db.reviews == old(db.reviews)[key := r]
    && (existed ==> r == old(db.reviews[key]) && KeptIdentity(r))
    && (!existed ==> fresh(r) && Born(r, Some(UpdateReview), key, task.dateCreated))
    && MergeApplied(r, task, h, now, if existed then old(PriorOf(db.reviews[key])) else Unset)
  }

  /** The outcome of create_from_merge(task): the attributes above, and votes
      from the comments only when the target series is active. */
  twostate predicate MergeReconciled(db: Session, task: MergeTask, h: Helpers, now: int, new r: Review)
    reads db, r
  {
    var active := task.targetSeries.None? || h.CreateSeries(task.targetSeries.value).active;
    MergeFields(db, task, h, now, r)
    && db.votes == (if active then Ingest(old(db.votes), task.comments, r, h) else old(db.votes))
  }

  /** `query(Review).filter_by(api_url=key).first()`, or else a new review
      made with the given type and creation stamp, not yet added to the
      session; `found` tells the two apart. */
  method FirstOrNew(db: Session, key: string, reviewType: Option<ReviewType>, created: int)
    returns (r: Review, found: bool)
    requires db.Valid()
    ensures r.apiUrl == Some(key)
    ensures found <==> key in db.reviews
    ensures found ==> r == db.reviews[key]
    ensures !found ==> fresh(r) && Born(r, reviewType, key, created) && Blank(r) && PriorOf(r) == Unset
  {
    found := key in db.reviews;
    if found {
      r := db.reviews[key];
    } else {
      r := new Review(reviewType, key, created);
    }
  }

  /** The attribute updates create_from_merge(task) makes on the review it
      found or made, inside its transaction. */
  method SyncMerge(r: Review, task: MergeTask, h: Helpers, now: int) returns (active: bool)
    modifies r`url, r`title, r`state, r`owner, r`source, r`syncd, r`series, r`updated, r`locked, r`locker
    ensures MergeApplied(r, task, h, now, old(PriorOf(r)))
    ensures active == (task.targetSeries.None? || h.CreateSeries(task.targetSeries.value).active)
  {
    // the attributes are worked out in the order the source assigns and
    // re-reads them, then written to the review together
    var prevState := r.state;
    var series := if task.targetSeries.Some? then Some(h.CreateSeries(task.targetSeries.value)) else r.series;
    active := task.targetSeries.None? || series.value.active;
    var state := SeriesOverride(h.MapLpState(task.queueStatus), series);
    var prev := r.updated;
    r.url, r.title, r.state, r.owner, r.source, r.syncd, r.series, r.updated :=
      Some(task.webLink), Some(task.sourceBranch), Some(state), Some(h.CreateUser(task.registrant)),
      Some("lp"), Some(now), series, Some(MergeUpdated(task));
    if r.updated != prev || r.state != prevState {
      r.Unlock();
    }
    if (state == Reviewed || state == Closed) && LastBy(task.comments, task.registrant) {
      r.state := Some(FollowUp);
    }
  }

  /** The transaction of create_from_merge(task): find or make the review,
      update it and store it under the proposal's self link. */
  method MergeTransaction(db: Session, task: MergeTask, h: Helpers, now: int) returns (r: Review, active: bool)
    requires db.Valid()
    modifies db`reviews, (if task.selfLink in db.reviews then {db.reviews[task.selfLink]} else {})
    ensures db.Valid()
    ensures MergeFields(db, task, h, now, r)
    ensures active == (task.targetSeries.None? || h.CreateSeries(task.targetSeries.value).active)
  {
    var found;
    r, found := FirstOrNew(db, task.selfLink, Some(UpdateReview), task.dateCreated);
    active := SyncMerge(r, task, h, now);
    db.reviews := db.reviews[task.selfLink := r];
  }

  /** create_from_merge: upsert the review of a merge proposal, then derive
      votes from its comments when its series is active. */
  method CreateFromMerge(db: Session, task: MergeTask, h: Helpers, now: int) returns (r: Review)
    requires db.Valid()
    modifies db, (if task.selfLink in db.reviews then {db.reviews[task.selfLink]} else {})
    ensures db.Valid()
    ensures MergeReconciled(db, task, h, now, r)
  {
    var active;
    r, active := MergeTransaction(db, task, h, now);
    if active {
      ParseComments(db, task.comments, r, h);
    }
  }

  /** The attributes create_from_bug(task) sets on its review. */
  predicate BugApplied(r: Review, task: BugTask, h: Helpers, now: int)
    requires BugReconcilable(task, h)
    reads r
  {
    r.title == Some(task.bug.title) && r.owner == Some(h.CreateUser(task.owner))
    && r.url == Some(task.webLink) && r.source == Some("lp") && r.syncd == Some(now)
    && r.updated == Some(BugUpdated(task.bug))
    && r.state == Some(BugState(h.MapBugState(task), task.bug.messages, task.assignee, task.bug.tags))
  }

  /** The review attributes and the review table after create_from_bug(task);
      `r` is the review it reconciled. */
  twostate predicate BugFields(db: Session, task: BugTask, h: Helpers, now: int, new r: Review)
    requires BugReconcilable(task, h)
    reads db`reviews, r
  {
    var key := task.selfLink;
    var existed := key in old(db.reviews);
    var before := if existed then old(PriorOf(db.reviews[key])) else Unset;
    // upsert by api url
    db.reviews == old(db.reviews)[key := r]
    && (existed ==> r == old(db.reviews[key]) && KeptIdentity(r))
    && (!existed ==> fresh(r) && Born(r, Some(NewReview), key, task.dateCreated))
    // the change test compares the review with itself, so the lock always survives
    && r.series == before.series && r.locked == before.locked && r.locker == before.locker
    && BugApplied(r, task, h, now)
  }

  /** The outcome of create_from_bug(task): the attributes above, and votes
      from every message but the bug's description. */
  twostate predicate BugReconciled(db: Session, task: BugTask, h: Helpers, now: int, new r: Review)
    requires BugReconcilable(task, h)
    reads db, r
  {
    BugFields(db, task, h, now, r)
    && db.votes == Ingest(old(db.votes), Thread(task.bug.messages), r, h)
  }

  /** The attribute updates create_from_bug(task) makes on the review it
      found or made, inside its transaction; `prev` is the review found, or
      null when `r` is new. */
  method SyncBug(r: Review, prev: Review?, task: BugTask, h: Helpers, now: int)
    requires prev == null || prev == r
    requires BugReconcilable(task, h)
    modifies r`title, r`owner, r`url, r`state, r`updated, r`source, r`syncd
    ensures BugApplied(r, task, h, now)
  {
    var bug := task.bug;
    r.title := Some(bug.title);
    r.owner := Some(h.CreateUser(task.owner));
    r.url := Some(task.webLink);
    r.state := Some(h.MapBugState(task));
    r.updated := Some(if bug.dateLastMessage > bug.dateLastUpdated then bug.dateLastMessage else bug.dateLastUpdated);
    if prev != null {
      // prev is r itself, so this compares the review with its own new values:
      // the branch that would unlock it is never taken
      if r.updated != prev.updated || r.state != prev.state {
        assert false;
      }
    }
    r.source := Some("lp");
    r.syncd := Some(now);
    if r.state == Some(Reviewed) || r.state == Some(Closed) {
      if Some(bug.messages[|bug.messages| - 1].author) == task.assignee {
        r.state := Some(FollowUp);
      }
    }
    if "not-a-charm" in bug.tags {
      r.state := Some(Abandonded);
    }
  }

  /** The transaction of create_from_bug(task): find or make the review,
      update it and store it under the task's self link. */
  method BugTransaction(db: Session, task: BugTask, h: Helpers, now: int) returns (r: Review)
    requires db.Valid()
    requires BugReconcilable(task, h)
    modifies db`reviews, (if task.selfLink in db.reviews then {db.reviews[task.selfLink]} else {})
    ensures db.Valid()
    ensures BugFields(db, task, h, now, r)
  {
    var prev: Review? := null;
    var found;
    r, found := FirstOrNew(db, task.selfLink, Some(NewReview), task.dateCreated);
    if found {
      prev := r;
    }
    SyncBug(r, prev, task, h, now);
    db.reviews := db.reviews[task.selfLink := r];
  }

  /** create_from_bug: upsert the review of a bug task, then derive votes
      from every message but the bug's description. */
  method CreateFromBug(db: Session, task: BugTask, h: Helpers, now: int) returns (r: Review)
    requires db.Valid()
    requires BugReconcilable(task, h)
    modifies db, (if task.selfLink in db.reviews then {db.reviews[task.selfLink]} else {})
    ensures db.Valid()
    ensures BugReconciled(db, task, h, now, r)
  {
    r := BugTransaction(db, task, h, now);
    ParseMessages(db, task.bug.messages, r, h);
  }

  /** create(question): the review with the question's url gets the Ask
      Ubuntu category; a review made for a new question is never added to
      the session, so the tables do not change. */
  method Create(db: Session, question: Question) returns (r: Review)
    requires db.Valid()
    modifies (if question.url in db.reviews then {db.reviews[question.url]} else {})`category
    ensures question.url in db.reviews ==> r == db.reviews[question.url]
    ensures question.url !in db.reviews ==>
      fresh(r) && r.reviewType == None && r.apiUrl == Some(question.url) && r.created == Some(question.creationDate)
      && r.id == None && r.status == None && r.votes == [] && r.tests == [] && Blank(r) && PriorOf(r) == Unset
    ensures r.category == Some("askubuntu")
  {
    var found;
    r, found := FirstOrNew(db, question.url, None, question.creationDate);
    r.category := Some("askubuntu");
  }

  // ---------------------------------------------------------------------
  // Ingestion loops

  /** `part in s` on strings: `part` occurs in `s` at some position. */
  predicate Contains(s: string, part: string)
    decreases |s|
  {
    (|part| <= |s| && s[..|part|] == part) || (|s| > 0 && Contains(s[1..], part))
  }

  /** A task filed against a source package rather than the charms distribution. */
  predicate IsSourcePackageTask(task: BugTask)
  {
    Contains(task.webLink, "+source")
  }

  /** `tasks[i]` is the first task of the list that get_bugs would
      reconcile under its self link. */
  predicate FirstOfKey(tasks: seq<BugTask>, i: int)
    requires 0 <= i < |tasks|
  {
    !IsSourcePackageTask(tasks[i])
    && forall j :: 0 <= j < i && !IsSourcePackageTask(tasks[j]) ==> tasks[j].selfLink != tasks[i].selfLink
  }

  /** The review of `task` and its votes are as create_from_bug(task) left them. */
  ghost predicate BugSynced(db: Session, task: BugTask, h: Helpers, now: int)
    requires BugReconcilable(task, h)
    reads db, db.reviews.Values
  {
    task.selfLink in db.reviews && BugApplied(db.reviews[task.selfLink], task, h, now)
    && forall m :: m in Thread(task.bug.messages) ==> Recorded(db.votes, m.selfLink)
  }

  /** One step of get_bugs: create_from_bug(task) for a task with no review
      yet. It adds that review, keeps every stored review and stamped vote,
      and leaves the new review synced. */
  method ReconcileNewBug(db: Session, task: BugTask, h: Helpers, now: int)
    requires db.Valid()
    requires BugReconcilable(task, h) && task.selfLink !in db.reviews
    modifies db
    ensures db.Valid()
    ensures db.reviews.Keys == old(db.reviews.Keys) + {task.selfLink}
    ensures forall k :: k in old(db.reviews) ==> db.reviews[k] == old(db.reviews[k])
    ensures forall k :: Recorded(old(db.votes), k) ==> k in db.votes && db.votes[k] == old(db.votes[k])
    ensures BugSynced(db, task, h, now)
    ensures forall t :: BugReconcilable(t, h) && old(BugSynced(db, t, h, now)) ==> BugSynced(db, t, h, now)
  {
    ghost var before := db.votes;
    var r := CreateFromBug(db, task, h, now);
    forall k | Recorded(before, k)
      ensures k in db.votes && db.votes[k] == before[k]
    {
      IngestKeepsRecorded(before, Thread(task.bug.messages), r, h, k);
    }
    IngestRecordsThread(before, Thread(task.bug.messages), r, h);
  }

  /** The self links of the tasks in `tasks` that are not filed against a
      source package: the reviews get_bugs makes sure exist. */
  function LinkedKeys(tasks: seq<BugTask>): (keys: set<string>)
    ensures forall t :: t in tasks && !IsSourcePackageTask(t) ==> t.selfLink in keys
    ensures forall k :: k in keys ==> exists t :: t in tasks && !IsSourcePackageTask(t) && t.selfLink == k
  {
    if tasks == [] then {}
    else
      var last := tasks[|tasks| - 1];
      assert tasks == tasks[..|tasks| - 1] + [last];
      LinkedKeys(tasks[..|tasks| - 1]) + (if IsSourcePackageTask(last) then {} else {last.selfLink})
  }

  /** A task is the first of its self link exactly when no earlier task
      has put that link among the linked keys. */
  lemma FirstOfKeyLinked(tasks: seq<BugTask>, i: int)
    requires 0 <= i < |tasks|
    ensures FirstOfKey(tasks, i) <==> !IsSourcePackageTask(tasks[i]) && tasks[i].selfLink !in LinkedKeys(tasks[..i])
  {
    if !FirstOfKey(tasks, i) && !IsSourcePackageTask(tasks[i]) {
      var j :| 0 <= j < i && !IsSourcePackageTask(tasks[j]) && tasks[j].selfLink == tasks[i].selfLink;
      assert tasks[j] in tasks[..i];
    }
  }

  /** The loop of get_bugs over the tasks a search returned: every task not
      filed against a source package ends up with a review under its self
      link; the first such task with a new self link is reconciled by
      create_from_bug, and no existing review and no stamped vote is
      replaced. Only the tasks reconciled are read beyond their links. */
  method GetBugs(db: Session, tasks: seq<BugTask>, h: Helpers, now: int)
    requires db.Valid()
    requires forall i :: 0 <= i < |tasks| && FirstOfKey(tasks, i) && tasks[i].selfLink !in db.reviews ==>
      BugReconcilable(tasks[i], h)
    modifies db
    ensures db.Valid()
    ensures db.reviews.Keys == old(db.reviews.Keys) + set t | t in tasks && !IsSourcePackageTask(t) :: t.selfLink
    ensures forall k :: k in old(db.reviews) ==> db.reviews[k] == old(db.reviews[k])
    ensures forall k :: Recorded(old(db.votes), k) ==> k in db.votes && db.votes[k] == old(db.votes[k])
    ensures forall i :: 0 <= i < |tasks| && FirstOfKey(tasks, i) && tasks[i].selfLink !in old(db.reviews) ==>
      BugReconcilable(tasks[i], h) && BugSynced(db, tasks[i], h, now)
  {
    for i := 0 to |tasks|
      invariant db.Valid()
      invariant db.reviews.Keys == old(db.reviews.Keys) + LinkedKeys(tasks[..i])
      invariant forall k :: k in old(db.reviews) ==> db.reviews[k] == old(db.reviews[k])
      invariant forall k :: Recorded(old(db.votes), k) ==> k in db.votes && db.votes[k] == old(db.votes[k])
      invariant forall j :: 0 <= j < i && FirstOfKey(tasks, j) && tasks[j].selfLink !in old(db.reviews) ==>
        BugReconcilable(tasks[j], h) && BugSynced(db, tasks[j], h, now)
    {
      var task := tasks[i];
      assert tasks[..i + 1][..i] == tasks[..i];
      if IsSourcePackageTask(task) {
        continue;
      }
      FirstOfKeyLinked(tasks, i);
      if task.selfLink !in db.reviews {
        ReconcileNewBug(db, task, h, now);
      }
    }
    assert tasks[..|tasks|] == tasks;
  }

  /** What get_questions does with one question. */
  datatype QuestionCall = Created(question: Question) | Refreshed(question: Question)

  /** The loop of get_questions: `create` for a question with no review under
      its url, `refresh` otherwise, in order. */
  method GetQuestions(db: Session, questions: seq<Question>) returns (calls: seq<QuestionCall>)
    requires db.Valid()
    ensures |calls| == |questions|
    ensures forall i :: 0 <= i < |questions| ==>
      calls[i] == if questions[i].url in db.reviews then Refreshed(questions[i]) else Created(questions[i])
  {
    calls := [];
    for i := 0 to |questions|
      invariant |calls| == i
      invariant forall j :: 0 <= j < i ==>
        calls[j] == if questions[j].url in db.reviews then Refreshed(questions[j]) else Created(questions[j])
    {
      var q := questions[i];
      if q.url !in db.reviews {
        var _ := Create(db, q);
        calls := calls + [Created(q)];
      } else {
        calls := calls + [Refreshed(q)];
      }
    }
  }

  // ---------------------------------------------------------------------
  // Refresh

  /** The exceptions refresh lets escape. */
  datatype RefreshError =
    | NothingToRefresh  // neither a record nor an id: "Need something to refresh"
    | NoSuchReview      // no review has the id, and reading api_url off null fails
    | WrongRemoteKind   // the loaded record lacks the attributes its reconciler reads
    | UnknownType       // a review whose type is neither NEW nor UPDATE: "Turn down for what"

  datatype RefreshResult = Raised(error: RefreshError) | ReturnedFalse | ReturnedNone

  /** `not id`: no id, or the id 0. */
  predicate MissingId(id: Option<int>)
  {
    id.None? || id.value == 0
  }

  /** `not record.api_url`: no api url, or the empty one. */
  predicate MissingApiUrl(apiUrl: Option<string>)
  {
    apiUrl.None? || apiUrl.value == ""
  }

  /** Neither table nor any review has changed. */
  twostate predicate Untouched(db: Session, record: Review?)
    reads db, db.reviews.Values, record
  {
    db.reviews == old(db.reviews) && db.votes == old(db.votes)
    && unchanged(db.reviews.Values) && (record != null ==> unchanged(record))
  }

  /** Only `target.status` was written, with `s`. */
  twostate predicate StatusSet(db: Session, record: Review?, target: Review, s: State)
    reads db, db.reviews.Values, record, target
  {
    db.reviews == old(db.reviews) && db.votes == old(db.votes)
    && target.status == Some(s)
    && unchanged(db.reviews.Values - {target}) && (record != null && record != target ==> unchanged(record))
    && target.state == old(target.state) && target.updated == old(target.updated)
    && target.locked == old(target.locked) && target.locker == old(target.locker)
    && target.title == old(target.title) && target.url == old(target.url)
    && target.owner == old(target.owner) && target.series == old(target.series)
    && target.source == old(target.source) && target.syncd == old(target.syncd)
    && target.category == old(target.category)
  }

  /** No review stored before, and not `record`, has changed, except the
      reconciled review `r`. */
  twostate predicate OnlyReconciled(stored: set<Review>, record: Review?, new r: Review)
    reads stored, record
  {
    unchanged(stored - {r}) && (record != null && record != r ==> unchanged(record))
  }

  /** The end of refresh once the remote record `task` behind the review
      `r` has loaded: the reconciler that the review's type names. */
  method RefreshFound(db: Session, record: Review?, r: Review, task: RemoteTask, h: Helpers, now: int)
    returns (result: RefreshResult)
    requires db.Valid()
    requires r.reviewType == Some(NewReview) && task.BugRecord? ==> BugReconcilable(task.bugTask, h)
    modifies db, db.reviews.Values
    ensures db.Valid()
    ensures r.reviewType == Some(NewReview) && task.BugRecord? ==>
      result == ReturnedNone && task.bugTask.selfLink in db.reviews
      && BugReconciled(db, task.bugTask, h, now, db.reviews[task.bugTask.selfLink])
      && OnlyReconciled(old(db.reviews.Values), record, db.reviews[task.bugTask.selfLink])
    ensures r.reviewType == Some(UpdateReview) && task.MergeRecord? ==>
      result == ReturnedNone && task.mergeTask.selfLink in db.reviews
      && MergeReconciled(db, task.mergeTask, h, now, db.reviews[task.mergeTask.selfLink])
      && OnlyReconciled(old(db.reviews.Values), record, db.reviews[task.mergeTask.selfLink])
    ensures r.reviewType == Some(NewReview) && !task.BugRecord? ==>
      result == Raised(WrongRemoteKind) && Untouched(db, record)
    ensures r.reviewType == Some(UpdateReview) && !task.MergeRecord? ==>
      result == Raised(WrongRemoteKind) && Untouched(db, record)
    ensures r.reviewType != Some(NewReview) && r.reviewType != Some(UpdateReview) ==>
      result == Raised(UnknownType) && Untouched(db, record)
  {
    if r.reviewType == Some(NewReview) {
      if task.BugRecord? {
        var _ := CreateFromBug(db, task.bugTask, h, now);
        result := ReturnedNone;
      } else {
        result := Raised(WrongRemoteKind);
      }
    } else if r.reviewType == Some(UpdateReview) {
      if task.MergeRecord? {
        var _ := CreateFromMerge(db, task.mergeTask, h, now);
        result := ReturnedNone;
      } else {
        result := Raised(WrongRemoteKind);
      }
    } else {
      result := Raised(UnknownType);
    }
  }

  /** refresh(record, id): reload the remote record behind a review and
      reconcile it. `load` stands for the Launchpad client's load; `target`
      is the review refresh worked on. */
  method Refresh(db: Session, record: Review?, id: Option<int>, load: string -> LoadOutcome, h: Helpers, now: int)
    returns (result: RefreshResult, ghost target: Review?)
    requires db.Valid()
    requires forall u :: load(u).Found? && load(u).task.BugRecord? ==> BugReconcilable(load(u).task.bugTask, h)
    modifies db, db.reviews.Values, record
    ensures db.Valid()
    ensures record == null && MissingId(id) ==> result == Raised(NothingToRefresh) && Untouched(db, record)
    ensures record != null ==> target == record
    ensures target != null ==> old(allocated(target))
    ensures record == null && !MissingId(id) && target != null ==>
      target in old(db.reviews.Values) && target.id == id
    ensures record == null && !MissingId(id) && target == null ==>
      (forall k :: k in old(db.reviews) ==> old(db.reviews[k].id) != id)
      && result == Raised(NoSuchReview) && Untouched(db, record)
    ensures target != null && MissingApiUrl(target.apiUrl) ==> result == ReturnedFalse && Untouched(db, record)
    ensures target != null && !MissingApiUrl(target.apiUrl) ==>
      var outcome := load(target.apiUrl.value);
      var kind := target.reviewType;
      match outcome
      case NotFound => result == ReturnedNone && StatusSet(db, record, target, Abandonded)
      case BadValue => result == ReturnedNone && StatusSet(db, record, target, Closed)
      case Found(task) =>
        if kind == Some(NewReview) && task.BugRecord? then
          result == ReturnedNone && task.bugTask.selfLink in db.reviews
          && BugReconciled(db, task.bugTask, h, now, db.reviews[task.bugTask.selfLink])
          && OnlyReconciled(old(db.reviews.Values), record, db.reviews[task.bugTask.selfLink])
        else if kind == Some(UpdateReview) && task.MergeRecord? then
          result == ReturnedNone && task.mergeTask.selfLink in db.reviews
          && MergeReconciled(db, task.mergeTask, h, now, db.reviews[task.mergeTask.selfLink])
          && OnlyReconciled(old(db.reviews.Values), record, db.reviews[task.mergeTask.selfLink])
        else if kind == Some(NewReview) || kind == Some(UpdateReview) then
          result == Raised(WrongRemoteKind) && Untouched(db, record)
        else
          result == Raised(UnknownType) && Untouched(db, record)
  {
    target := null;
    if record == null && MissingId(id) {
      return Raised(NothingToRefresh), null;
    }
    var r := record;
    if r == null {
      r := db.Get(id.value);
      if r == null {
        return Raised(NoSuchReview), null;
      }
    }
    target := r;
    if MissingApiUrl(r.apiUrl) {
      return ReturnedFalse, r;
    }
    var outcome := load(r.apiUrl.value);
    match outcome {
      case NotFound =>
        r.status := Some(Abandonded);
        result := ReturnedNone;
      case BadValue =>
        r.status := Some(Closed);
        result := ReturnedNone;
      case Found(task) =>
        result := RefreshFound(db, record, r, task, h, now);
    }
  }
}

=== FILE: models.dfy ===
/**
 * The review queue's entities (reviewq/models.py): the Review record with its
 * advisory lock, its state predicates and presentation helpers, the votes and
 * tests that hang off it, the UTC column type, and the unit-of-work session
 * that holds the review and vote tables.
 */
module Models {
  import opened Wrappers

  /** The nine values of the review_state column, in declaration order; the
      source spells ABANDONDED with a doubled D and the model keeps that name. */
  datatype State =
    | Pending | Reviewed | Merged | Closed | Abandonded
    | Ready | New | InProgress | FollowUp

  /** The text stored in the review_state column for each state. */
  function StateName(s: State): (name: string)
    ensures |name| > 0
    ensures StateOf(name) == Some(s)
  {
    match s
    case Pending => "PENDING"
    case Reviewed => "REVIEWED"
    case Merged => "MERGED"
    case Closed => "CLOSED"
    case Abandonded => "ABANDONDED"
    case Ready => "READY"
    case New => "NEW"
    case InProgress => "IN PROGRESS"
    case FollowUp => "FOLLOW UP"
  }

  /** The state a review_state value stands for, if any. */
  function StateOf(name: string): (s: Option<State>)
  {
    if name == "PENDING" then Some(Pending)
    else if name == "REVIEWED" then Some(Reviewed)
    else if name == "MERGED" then Some(Merged)
    else if name == "CLOSED" then Some(Closed)
    else if name == "ABANDONDED" then Some(Abandonded)
    else if name == "READY" then Some(Ready)
    else if name == "NEW" then Some(New)
    else if name == "IN PROGRESS" then Some(InProgress)
    else if name == "FOLLOW UP" then Some(FollowUp)
    else None
  }

  /** Distinct states are stored as distinct names, so the column loses nothing. */
  lemma StateNamesDistinct(s: State, t: State)
    ensures StateName(s) == StateName(t) ==> s == t
  {
    assert StateOf(StateName(s)) == Some(s) && StateOf(StateName(t)) == Some(t);
  }

  /** The review_type column: 'NEW' (a charm proposed through a bug) or
      'UPDATE' (a merge proposal against an existing charm). */
  datatype ReviewType = NewReview | UpdateReview

  /** The reviewvote_vote column. */
  datatype VoteKind = Positive | Negative | Comment

  /** The primary key of a User row; users themselves are reference entities
      resolved by a helper outside this model. */
  type UserId = int

  /** A distribution series; `active` is false once the series is retired. */
  datatype Series = Series(name: string, active: bool)

  /** A ReviewVote row. `commentId` is the self link of the remote comment
      it was derived from; `created` may be null. */
  datatype ReviewVote = ReviewVote(
    commentId: string,
    vote: VoteKind,
    owner: UserId,
    review: Review,
    created: Option<int>)

  /** A ReviewTest row. `color` is not a column: it is an attribute that the
      Review's `test` property writes for the page that renders it. */
  class ReviewTest {
    var status: Option<string>
    var color: string

    constructor (status: Option<string>)
      ensures this.status == status && color == ""
    {
      this.status := status;
      color := "";
    }
  }

  /** A Review row. Timestamps are whole seconds; every column may be null.
      `status` is not a column: it is the plain attribute that the plugin's
      refresh assigns (the column is `state`). */
  class Review {
    /** The primary key, assigned by the database; the operations modelled
        here never write it. */
    const id: Option<int>
    var title: Option<string>
    /** Set when the review is made and never written afterwards. */
    const reviewType: Option<ReviewType>
    var url: Option<string>
    /** Set when the review is made and never written afterwards. */
    const apiUrl: Option<string>
    var state: Option<State>
    var status: Option<State>
    /** Set when the review is made and never written afterwards. */
    const created: Option<int>
    var updated: Option<int>
    var syncd: Option<int>
    var locked: Option<int>
    var owner: Option<UserId>
    var locker: Option<UserId>
    var series: Option<Series>
    var source: Option<string>
    var category: Option<string>
    /** The votes and tests relationships; the operations modelled here
        never write them. */
    const votes: seq<ReviewVote>
    const tests: seq<ReviewTest>

    /** `Review(type=..., api_url=..., created=...)`: every other attribute
        starts out null or empty; the primary key is assigned by the database. */
    constructor (reviewType: Option<ReviewType>, apiUrl: string, created: int)
      ensures this.reviewType == reviewType && this.apiUrl == Some(apiUrl)
      ensures this.created == Some(created)
      ensures id == None && title == None && url == None && state == None && status == None
      ensures updated == None && syncd == None && locked == None
      ensures owner == None && locker == None && series == None
      ensures source == None && category == None && votes == [] && tests == []
    {
      this.reviewType := reviewType;
      this.apiUrl := Some(apiUrl);
      this.created := Some(created);
      id, votes, tests := None, [], [];
      title, url, state, status := None, None, None, None;
      updated, syncd, locked := None, None, None;
      owner, locker, series := None, None, None;
      source, category := None, None;
    }

    /** A reviewer claims the review; `now` stands for the clock. */
    method Lock(user: UserId, now: int)
      modifies this`locked, this`locker
      ensures locked == Some(now) && locker == Some(user)
    {
      locked := Some(now);
      locker := Some(user);
    }

    /** The claim is released. */
    method Unlock()
      modifies this`locked, this`locker
      ensures locked == None && locker == None
    {
      locked := None;
      locker := None;
    }

    /** The submitter has to act next. */
    predicate UserFollowup(): (waits: bool)
      reads this
      ensures waits <==> state.Some? && StateName(state.value) in ["REVIEWED", "IN PROGRESS"]
    {
      state == Some(Reviewed) || state == Some(InProgress)
    }

    /** A reviewer has to act next. */
    predicate ReviewerFollowup(): (waits: bool)
      reads this
      ensures waits <==> state.Some? && StateName(state.value) in ["READY", "NEW", "PENDING", "FOLLOW UP"]
    {
      state == Some(Ready) || state == Some(New) || state == Some(Pending) || state == Some(FollowUp)
    }

    /** The indefinite article for the state's name: "an" when the name
        starts with an upper-case vowel. The source fails on a null state. */
    function StateInflect(): (article: string)
      reads this
      requires state.Some?
      ensures article == "an" <==> state.value == Abandonded || state.value == InProgress
      ensures article == "an" || article == "a"
    {
      if StateName(state.value)[0] in "AEIOU" then "an" else "a"
    }

    /** The votes cast as POSITIVE, in their order. */
    function PositiveVotes(): (positive: seq<ReviewVote>)
      reads this
      ensures forall i :: 0 <= i < |positive| ==> positive[i] in votes && positive[i].vote == Positive
      ensures forall i :: 0 <= i < |votes| && votes[i].vote == Positive ==> votes[i] in positive
      ensures |positive| <= |votes|
    {
      VotesOf(votes, Positive)
    }

    /** The votes cast as NEGATIVE, in their order. */
    function NegativeVotes(): (negative: seq<ReviewVote>)
      reads this
      ensures forall i :: 0 <= i < |negative| ==> negative[i] in votes && negative[i].vote == Negative
      ensures forall i :: 0 <= i < |votes| && votes[i].vote == Negative ==> votes[i] in negative
      ensures |negative| <= |votes|
    {
      VotesOf(votes, Negative)
    }

    /** The age label of the review as of `now`, measured from `updated`
        (or from `created`), with the arithmetic as written: the label is
        "0 h" exactly for a whole number of days, and a count of whole days
        otherwise. The source fails when that timestamp is null. */
    function Age(now: int, useUpdated: bool): (text: string)
      reads this
      requires (if useUpdated then updated else created).Some?
      ensures var elapsed := now - (if useUpdated then updated else created).value;
        elapsed % SecondsPerDay == 0 <==> text == "0 h"
      ensures var elapsed := now - (if useUpdated then updated else created).value;
        elapsed % SecondsPerDay != 0 ==> text == DecimalString(elapsed / SecondsPerDay) + " d"
    {
      ElapsedLabel(now - (if useUpdated then updated else created).value)
    }

    /** The age label the helper evidently intends: whole hours elapsed up
        to 48, whole days beyond. */
    function AgeIntended(now: int, useUpdated: bool): (text: string)
      reads this
      requires (if useUpdated then updated else created).Some?
      ensures var elapsed := now - (if useUpdated then updated else created).value;
        0 <= elapsed < 49 * 3600 ==> text == DecimalString(elapsed / 3600) + " h"
      ensures var elapsed := now - (if useUpdated then updated else created).value;
        elapsed >= 49 * 3600 ==> text == DecimalString(elapsed / SecondsPerDay) + " d"
    {
      ElapsedLabelIntended(now - (if useUpdated then updated else created).value)
    }

    /** The latest test run, annotated with the colour its status is shown in. */
    method Test() returns (t: ReviewTest?)
      modifies (if tests == [] then {} else {tests[|tests| - 1]})`color
      ensures t == null <==> tests == []
      ensures t != null ==> t == tests[|tests| - 1]
      ensures t != null ==> (t.color == "red" <==> t.status == Some("FAIL"))
      ensures t != null ==> (t.color == "green" <==> t.status == Some("PASS"))
      ensures t != null && t.status != Some("FAIL") && t.status != Some("PASS") ==> t.color == ""
    {
      if tests == [] {
        return null;
      }
      t := tests[|tests| - 1];
      if t.status == Some("FAIL") {
        t.color := "red";
      } else if t.status == Some("PASS") {
        t.color := "green";
      } else {
        t.color := "";
      }
    }
  }

  /** The two follow-up predicates never hold together. */
  lemma FollowupExclusive(r: Review)
    ensures !(r.UserFollowup() && r.ReviewerFollowup())
  {
  }

  /** A review with a state waits on nobody exactly when it is merged,
      closed or abandoned. */
  lemma FollowupPartition(r: Review)
    requires r.state.Some?
    ensures !r.UserFollowup() && !r.ReviewerFollowup()
        <==> r.state.value in {Merged, Closed, Abandonded}
  {
    var s := r.state.value;
    assert r.state == Some(s);
    match s
    case Pending =>
    case Reviewed =>
    case Merged =>
    case Closed =>
    case Abandonded =>
    case Ready =>
    case New =>
    case InProgress =>
    case FollowUp =>
  }

  // ---------------------------------------------------------------------
  // Vote filters

  /** The votes of one kind, in their original order (the list
      comprehension behind positive_votes and negative_votes). */
  function VotesOf(votes: seq<ReviewVote>, kind: VoteKind): (r: seq<ReviewVote>)
    ensures |r| <= |votes|
    ensures forall v :: v in r ==> v in votes && v.vote == kind
    ensures forall v :: v in votes && v.vote == kind ==> v in r
  {
    if votes == [] then []
    else (if votes[0].vote == kind then [votes[0]] else []) + VotesOf(votes[1..], kind)
  }

  /** `a` is `b` with some elements dropped and the rest kept in order. */
  ghost predicate IsSubsequence<T>(a: seq<T>, b: seq<T>)
    decreases |b|
  {
    if a == [] then true
    else if b == [] then false
    else (a[0] == b[0] && IsSubsequence(a[1..], b[1..])) || IsSubsequence(a, b[1..])
  }

  lemma {:induction false} VotesOfSubsequence(votes: seq<ReviewVote>, kind: VoteKind)
    ensures IsSubsequence(VotesOf(votes, kind), votes)
  {
    if votes != [] {
      VotesOfSubsequence(votes[1..], kind);
      var rest := VotesOf(votes[1..], kind);
      if votes[0].vote == kind {
        assert ([votes[0]] + rest)[1..] == rest;
      } else {
        assert VotesOf(votes, kind) == rest;
      }
    }
  }

  /** Each vote of the kind appears as often as in `votes`; no other vote appears. */
  lemma {:induction false} VotesOfMultiplicity(votes: seq<ReviewVote>, kind: VoteKind, v: ReviewVote)
    ensures multiset(VotesOf(votes, kind))[v] == if v.vote == kind then multiset(votes)[v] else 0
  {
    if votes != [] {
      VotesOfMultiplicity(votes[1..], kind, v);
      var rest := VotesOf(votes[1..], kind);
      assert votes == [votes[0]] + votes[1..];
      assert multiset(votes) == multiset{votes[0]} + multiset(votes[1..]);
      if votes[0].vote == kind {
        assert VotesOf(votes, kind) == [votes[0]] + rest;
        assert multiset(VotesOf(votes, kind)) == multiset{votes[0]} + multiset(rest);
      } else {
        assert VotesOf(votes, kind) == rest;
      }
    }
  }

  /** No vote is both positive and negative. */
  lemma PositiveNegativeDisjoint(votes: seq<ReviewVote>)
    ensures forall v :: v in VotesOf(votes, Positive) ==> v !in VotesOf(votes, Negative)
  {
  }

  /** Together the two filters keep at most every vote once. */
  lemma {:induction false} PositiveNegativeFit(votes: seq<ReviewVote>)
    ensures |VotesOf(votes, Positive)| + |VotesOf(votes, Negative)| <= |votes|
  {
    if votes != [] {
      PositiveNegativeFit(votes[1..]);
    }
  }

  // ---------------------------------------------------------------------
  // Age

  const SecondsPerDay := 86400

  function DigitChar(d: int): char
    requires 0 <= d < 10
  {
    "0123456789"[d]
  }

  function NatString(n: nat): (s: string)
    ensures |s| > 0
    decreases n
  {
    if n < 10 then [DigitChar(n)] else NatString(n / 10) + [DigitChar(n % 10)]
  }

  /** `'%s' % n` for an integer n. */
  function DecimalString(n: int): (s: string)
    ensures |s| > 0
  {
    if n < 0 then "-" + NatString(-n) else NatString(n)
  }

  /** The age label for an elapsed time of `elapsed` seconds, as written:
      the timedelta splits into whole days and a sub-day remainder of
      seconds (both floored), `hours` is that remainder times 3600, and the
      label is in days once `hours` exceeds 48. So any remainder of one
      second or more gives days, and only a whole number of days gives
      "0 h". */
  function ElapsedLabel(elapsed: int): (text: string)
    ensures elapsed % SecondsPerDay == 0 <==> text == "0 h"
    ensures elapsed % SecondsPerDay != 0 ==> text == DecimalString(elapsed / SecondsPerDay) + " d"
  {
    var days := elapsed / SecondsPerDay;
    var seconds := elapsed % SecondsPerDay;
    var hours := seconds * 60 * 60;
    if hours > 48 then
      var d := DecimalString(days) + " d";
      assert d[|d| - 1] == 'd';
      d
    else
      DecimalString(hours) + " h"
  }

  /** The label the age helper evidently intends: whole hours elapsed,
      switching to days beyond 48 hours. */
  function ElapsedLabelIntended(elapsed: int): (text: string)
  {
    var hours := elapsed / 3600;
    if hours > 48 then DecimalString(elapsed / SecondsPerDay) + " d" else DecimalString(hours) + " h"
  }

  /** One hour ago reads "0 d" as written, where "1 h" is meant. */
  lemma AgeOneHourCounterexample()
    ensures ElapsedLabel(3600) == "0 d"
    ensures ElapsedLabelIntended(3600) == "1 h"
  {
    assert DecimalString(0) == "0";
    assert DecimalString(1) == "1";
  }

  /** The intended label shows the whole hours elapsed, up to 48 of them. */
  lemma IntendedShowsHours(hours: nat, rest: nat)
    requires hours <= 48 && rest < 3600
    ensures ElapsedLabelIntended(hours * 3600 + rest) == DecimalString(hours) + " h"
  {
    assert (hours * 3600 + rest) / 3600 == hours;
  }

  /** Beyond 48 whole hours the intended label counts whole days. */
  lemma IntendedShowsDays(elapsed: int)
    requires elapsed >= 49 * 3600
    ensures ElapsedLabelIntended(elapsed) == DecimalString(elapsed / SecondsPerDay) + " d"
  {
  }

  // ---------------------------------------------------------------------
  // The UTC timestamp column type

  datatype TzInfo = Utc | FixedOffset(minutes: int)

  /** A datetime: its wall-clock reading and its time zone, if any. */
  datatype DateTime = DateTime(wallClock: int, tz: Option<TzInfo>)

  /** Storing a value tags it as UTC without moving its wall clock. */
  function BindParam(value: Option<DateTime>): (bound: Option<DateTime>)
    ensures bound.Some? <==> value.Some?
    ensures bound.Some? ==> bound.value.wallClock == value.value.wallClock && bound.value.tz == Some(Utc)
  {
    if value.Some? then Some(value.value.(tz := Some(Utc))) else None
  }

  /** Loading a value drops its time zone, again without moving its wall clock. */
  function ResultValue(value: Option<DateTime>): (loaded: Option<DateTime>)
    ensures loaded.Some? <==> value.Some?
    ensures loaded.Some? ==> loaded.value.wallClock == value.value.wallClock && loaded.value.tz == None
  {
    if value.Some? then Some(value.value.(tz := None)) else None
  }

  /** A naive datetime, or null, survives a store and a load unchanged. */
  lemma UtcRoundTrip(value: Option<DateTime>)
    requires value.None? || value.value.tz.None?
    ensures ResultValue(BindParam(value)) == value
  {
  }

  /** Whatever time zone a value carried, a store and a load give the naive
      reading of the same wall clock. */
  lemma UtcRoundTripDropsZone(value: Option<DateTime>)
    ensures ResultValue(BindParam(value)) == ResultValue(value)
  {
  }

  // ---------------------------------------------------------------------
  // The session

  /** Every review is stored under its api url and every vote under its
      comment id. */
  ghost predicate Keyed(reviews: map<string, Review>, votes: map<string, ReviewVote>)
  {
    (forall k :: k in reviews ==> reviews[k].apiUrl == Some(k))
    && (forall k :: k in votes ==> votes[k].commentId == k)
  }

  /** The unit-of-work session's view of the review and review_vote tables:
      reviews by their api_url, votes by their comment_id. Transactions and
      flushing are not modelled. */
  class Session {
    var reviews: map<string, Review>
    var votes: map<string, ReviewVote>

    ghost predicate Valid()
      reads this
    {
      Keyed(reviews, votes)
    }

    /** `query(Review).get(id)`: the review with that primary key, or null. */
    method Get(id: int) returns (r: Review?)
      requires Valid()
      ensures r != null ==> r in reviews.Values && r.id == Some(id)
      ensures r == null ==> forall k :: k in reviews ==> reviews[k].id != Some(id)
    {
      if k :| k in reviews && reviews[k].id == Some(id) {
        r := reviews[k];
      } else {
        r := null;
      }
    }

    /** The create_vote helper, as far as this model relies on it: the vote
        is stored under its comment id. */
    method CreateVote(v: ReviewVote)
      modifies this`votes
      ensures votes == old(votes)[v.commentId := v]
    {
      votes := votes[v.commentId := v];
    }
  }
}

=== FILE: wrappers.dfy ===
/** The nullable values of the model: a column or attribute that may hold None. */
module Wrappers {

  datatype Option<+T> = None | Some(value: T)

}
